=== FILE: README.md ===
# gigolow: job queue, retry classifier, repository jobs and default paths

A Dafny model of the sequential logic of gigolow, a small job runner
written in Go. It covers four pieces:

- **Service manager** (`blade.go`, module `Blade`). It keeps a FIFO queue
  of `Program`s and builds programs from a menu of pacman templates or a
  custom entry. `ExecuteQueue` pops the head, runs it (with a `sudo` prefix
  when required) and re-appends it at the tail when the failure is
  classified as a locked resource. The failure is classified by
  `isResourceLockedError`: exit status 1, or a lock message or lock-file
  path in the error text. The command loop reads `add`, `run`, `list` and
  `exit`.
- **Repository commands** (`pkg/repository/repo.go`, module `Jobs`). This
  covers `Clone` and `Status`: the git command each runs, the lines each
  logs and what each returns.
- **Repository jobs** (`pkg/cli/command.go`, module `Jobs`).
  `processRepository` turns the clone and status results into a
  `JobStatus`. `RunJobs` is modelled by its result: for Threads ≥ 1 it is a
  permutation of the per-repository statuses, and for Threads ≤ 0 it is
  empty.
- **Default paths** (`main.go`, module `Paths`). `GetDefaultPath` is a
  branch table over the kind of path, the operating system and the
  environment.

Module `Strings` models the Go library functions the code relies on. These
are `strings.Contains`, `strings.Join`, `strings.Fields` with
`unicode.IsSpace`, and `strings.ToLower`. Module `Wrappers` holds `Option`.

Process execution is replaced by inputs. Each run of a program takes the
next element of a finite outcome trace (`Finished`, `Failed(ExitError(code,
text))` or `Failed(StartError(text))`). Each git command takes a
`ProcessResult` (captured output and optional error text). The operating
system and the environment are parameters of `GetDefaultPath`. The lines
`Clone` and `Status` log are returned as a list; other logging is a no-op. The unbounded retry
loop is not claimed to terminate. `ExecuteQueue` stops either `Drained`
(the queue emptied, the only exit of the real loop) or `Unfinished` (the
trace ran out while programs were still queued).

Four facts about the code shape the model. No program is checked or
rejected when it is added. The lock classifier is one fixed rule, not
configurable per command family. `RunJobs` never retries a failed
repository. Its results come in completion order, not submission order.

## Model

| member | source | states |
|---|---|---|
| Strings.Contains | blade.go:164-168 | `strings.Contains(s, p)` is true exactly when `p` occurs in `s` at some position |
| Strings.Fields | blade.go:216-218 | `splitArgs` yields only non-empty, whitespace-free tokens, and drops nothing but white space (the tokens concatenate to the input with white space removed) |
| Strings.FieldsGaps | blade.go:216-218 | the input is the tokens interleaved with runs of white space, non-empty between two tokens: each token is a maximal run of non-space characters |
| Strings.SplitIsUnique | blade.go:216-218 | a string splits into tokens separated by white-space runs in only one way |
| Strings.FieldsCharacterized | blade.go:216-218 | a token list is the result of `strings.Fields` exactly when the input is those tokens separated by white-space runs |
| Strings.Join | pkg/repository/repo.go:37 | `strings.Join` of no elements is empty; otherwise it is the first element followed by `sep + x` for each later element `x`, in order; with an empty separator it is the plain concatenation |
| Strings.ToLower | blade.go:87 | `strings.ToLower` keeps the length, no ASCII upper-case letter remains, and each character equals the input's up to ASCII case |
| Strings.FieldsJoinRoundTrip | blade.go:216-218 | splitting a space-joined list of such tokens gives the list back |
| Blade.IsResourceLockedError | blade.go:150-184 | a failure is lock-classified exactly when it is an exit error with status 1 (any text), or its text contains one of the three lock messages or one of the three lock-file paths; exit status 1 alone suffices |
| Blade.LockFilePatternIsSubstring | blade.go:170-181 | an unanchored match of a literal followed by `.*` succeeds exactly when the literal is a substring, so the regex patterns classify as substrings |
| Blade.StartErrorClassifiedByTextOnly | blade.go:150-156 | a process that never started is classified by its text alone, like an exit error with a status other than 1 |
| Blade.ClassifierLockExamples | blade.go:150-168 | exit status 1 with generic text, and "unable to lock database" in a start error, are lock failures |
| Blade.ClassifierPermanentExample | blade.go:150-183 | the error "exit status 2" matches no pattern and is permanent |
| Blade.Argv | blade.go:114-119 | the argument vector is `sudo, Path, Args...` when sudo is required and `Path, Args...` otherwise; removing the wrapper gives back exactly the program's path and arguments |
| Blade.Step | blade.go:109-135 | one iteration removes exactly the head and keeps the rest in order; a lock-classified failure re-appends the same program (a rotation by one, same length and elements); success or any other failure shrinks the queue by one and drops the head |
| Blade.ExecuteQueue | blade.go:101-137 | the k-th attempt gets the k-th outcome; the first attempt runs the head; a run that has not drained has a non-empty queue and used the whole trace |
| Blade.ExecuteQueueConserves | blade.go:101-137 | programs are never lost or duplicated: those retired plus those still queued are the starting queue, as a multiset |
| Blade.DrainedRetiresEachOnce | blade.go:101-137 | when the loop exits, every queued program has been retired exactly once |
| Blade.NoLockFailuresDrainInOrder | blade.go:101-137 | without lock failures the queue is run once through in FIFO order and drains, one attempt per program |
| Blade.RetryConvergence | blade.go:122-135 | a program alone in the queue that fails on a lock n times and then does not is attempted exactly n + 1 times and leaves the queue |
| Blade.RequeuedProgramsReturn | blade.go:122-135 | in any queue that drains, every attempt that re-queued its program is followed by a later attempt of that same program |
| Blade.AllLockedRotates | blade.go:122-129 | while every attempt fails on a lock the loop does not exit, and after m attempts the queue is rotated by m mod its length |
| Blade.CustomArgs | blade.go:76-82 | custom arguments are whitespace-free, non-empty words whose concatenation is the answer without white space, and the answer is exactly those words separated by white-space runs; an empty answer gives none |
| Blade.CustomArgsRoundTrip | blade.go:79-82 | a line of space-separated words becomes exactly those words |
| Blade.SaysYes | blade.go:84-87 | sudo is required exactly when the answer is "yes" in any letter case |
| Blade.Template | blade.go:38-93 | choices "1" to "4" build a program and every other choice builds none; the three pacman templates run `/usr/bin/pacman` with sudo; the custom program takes its name, path, arguments and sudo flag from the four answers in order |
| Blade.PacmanTemplates | blade.go:39-66 | the templates are `-Syu`, `-S --noconfirm <pkg>` and `-R <pkg>`, with the package answer as one argument |
| Blade.AddProgram | blade.go:90-97 | an invalid choice leaves the queue unchanged; a valid one appends exactly one program at the tail and keeps the rest |
| Blade.ReadAdd | blade.go:33-86 | an `add` consumes the choice line and then as many answer lines as the choice prompts for, skipping and reordering nothing; answers past the end of input read as empty |
| Blade.Repl | blade.go:186-214 | the loop ends inside `run` only with programs still queued |
| Blade.RunDrainsThenContinues | blade.go:201-203 | `run` executes the queue until it drains, then the loop goes on with an empty queue and the outcomes not yet used |
| Blade.ExitStops | blade.go:207-209 | `exit` ends the loop with the queue unchanged, reading nothing after it |
| Blade.OtherCommandsContinue | blade.go:204-211 | `list` and unknown lines change nothing and the loop goes on |
| Blade.QueueChangesOnlyByAddOrRun | blade.go:198-212 | input without `add` or `run` ends with the starting queue |
| Blade.WithoutRunQueueOnlyGrows | blade.go:198-212 | without `run` the starting queue stays a prefix of the queue |
| Jobs.CloneArgs | pkg/repository/repo.go:27-30 | clone arguments start with `clone, Url`; they are exactly that when the branch is empty and `clone, Url, -b, Branch` otherwise |
| Jobs.CloneArgsRoundTrip | pkg/repository/repo.go:27-30 | the repository can be read back from its clone arguments |
| Jobs.CloneLogLine | pkg/repository/repo.go:37 | the logged command line is `git clone <url>`, followed by ` -b <branch>` when a branch is set |
| Jobs.Clone | pkg/repository/repo.go:26-45 | `Clone` runs a `git` command from which the repository can be read back, logs the command line, the output and (on failure) the error line as written, with the URL in the branch slot, and returns the command's error |
| Jobs.Status | pkg/repository/repo.go:11-25 | `Status` runs `git status`, logs the command, the output and (on failure) the error line, and returns the output and the error |
| Jobs.StatusIgnoresRepository | pkg/repository/repo.go:11-12 | the status command is `git status` whatever the repository |
| Jobs.OnlyGitIsRun | pkg/repository/repo.go:12-32 | a repository job runs one or two commands, all `git`, the first cloning that repository's URL |
| Jobs.CloneErrorLogAsWritten | pkg/repository/repo.go:42 | the clone error line as the code writes it is the corrected line for a repository whose branch is its own URL |
| Jobs.CloneErrorLogLosesBranch | pkg/repository/repo.go:42 | the clone error log line as written is the same for any two branches of one URL, while the corrected lines differ |
| Jobs.CloneErrorLogNamesBranch | pkg/repository/repo.go:42 | the corrected line carries the branch between its URL part and its error part |
| Jobs.ProcessRepository | pkg/cli/command.go:65-84 | Repository is always the URL; success holds exactly when both git commands succeed; the stage is "Completed" on success and "Cloning" on either failure; the message is the first error, or empty on success; status is run only after a successful clone |
| Jobs.CloneFailureSkipsStatus | pkg/cli/command.go:68-72 | after a failed clone the status result has no influence |
| Jobs.RunJobs | pkg/cli/command.go:21-63 | the dispatch-order result is a valid run: empty for Threads ≤ 0, one status per repository otherwise |
| Jobs.OneStatusPerRepository | pkg/cli/command.go:21-63 | any permitted completion order reports one status per configured repository, and every reported status names a configured URL |
| Paths.BasePath | main.go:37-51 | the base is APPDATA on Windows (fallback `C:\Users\Public\AppData`) and HOME elsewhere (fallback `/tmp`), and is never empty |
| Paths.JoinPath | main.go:56-68 | `filepath.Join` ignores empty elements, gives "" when all are empty, and for any number of elements gives the first non-empty one followed by separator-prefixed later ones, in order |
| Paths.JoinPathIgnoresEmpty | main.go:56-68 | an empty element anywhere leaves the joined path unchanged |
| Paths.GetDefaultPath | main.go:36-70 | "log" and "data" are fixed per operating system; "config" is `<base>/gigolow/config` and any other kind `<base>/gigolow`, with the OS separator; the path is never empty |
| Paths.LogAndDataIgnoreEnvironment | main.go:57-66 | the log and data directories do not depend on the environment |
| Paths.ConfigInsideDefault | main.go:53-69 | the configuration directory is the `config` subdirectory of the default directory |

## Left out

- Process execution, the captured and forwarded output, and `sudo` itself. The outcome of each run is an input.
- The five-second cooldown after a lock failure (blade.go:129), which only affects timing.
- The mutexes of `ServiceManager` and the logger. The unlocked read of the queue in `ShowQueue` is left out too, because it matters only under concurrency.
- The goroutines, channels and wait group of `RunJobs`. Only the set of results they produce is modelled.
- Printed text: menus, prompts, progress messages and the lines `ShowQueue` prints. Only `list`'s effect on the queue (none) is modelled.
- The logger itself (pkg/logging/logger.go): where and how lines are written. The lines `Clone` and `Status` log are modelled as a list, and the logging in pkg/cli/command.go is not modelled.
- In main.go: `EnviaNotificacao`, `CreateDir`, `loadRepositories`, `loadEnvConfig` and `main`. These do I/O, JSON and environment parsing, and desktop notification. The monitoring package is not part of this model.
- configs/config.go is mirrored as the `Repository` and `Config` datatypes. It has no behaviour.
- Blade.Repl: reads the menu choice and its answers from the same line stream as the commands, one line at a time, as at an interactive terminal. `AddProgram` really opens a second `bufio.Scanner` on stdin. With piped input that scanner and the main one can buffer each other's lines; this is not modelled.
- Blade.IsResourceLockedError: the error text is an input. For a real `*exec.ExitError`, Go's text is `exit status N`, which matches no pattern.
- Strings.ToLower: lower-cases ASCII letters only. Under Go's `unicode.ToLower`, no non-ASCII character lower-cases to `y`, `e` or `s`, so the sudo answer rule is still exact.
- Paths.JoinPath, Paths.GetDefaultPath: `filepath.Join` is modelled as joining the non-empty elements with the separator. The `filepath.Clean` step is not modelled. A HOME ending in `/` gives `//` in the model but not in Go.
- Blade.RetryConvergence: the exact attempt count n + 1 is proved for a program alone in the queue. For any queue, Blade.RequeuedProgramsReturn proves that a re-queued program is attempted again before the loop exits, but not the count.
- Jobs.RunJobs: the concrete completion order chosen by the scheduler is not modelled. Any permutation is allowed (`IsRunJobsResult`).

## Findings

| source | as written | input that shows it | evidently intended | confidence | as-written member | corrected member |
|---|---|---|---|---|---|---|
| pkg/repository/repo.go:42 | the clone error log line prints `repository.Url` after `branch: ` | any two repositories with the same URL and different branches, e.g. `("u", "main")` and `("u", "dev")`, log the same line | print `repository.Branch`, as the matching lines at pkg/cli/command.go:69 and 75 do | high (not executed) | Jobs.CloneErrorLogLosesBranch | Jobs.CloneErrorLogNamesBranch |

=== FILE: blade.dfy ===
/** The interactive service manager of blade.go: a FIFO queue of programs, the
    menu that builds programs from templates, the sequential executor that
    re-queues programs failing on a locked resource, and the command loop.

    Running a process is not modelled: each attempt's result is taken from a
    finite trace of outcomes supplied by the caller. */
module Blade {
  import opened Wrappers
  import opened Strings

  /** One queued unit of work. */
  datatype Program = Program(name: string, path: string, args: seq<string>, requireSudo: bool)

  /** Why `cmd.Run()` returned a non-nil error: the process ran and exited
      with a non-zero status (Go's `*exec.ExitError`, whose exit code and
      error text are kept), or it could not be started at all. */
  datatype RunError = ExitError(code: int, text: string) | StartError(text: string) {
    function Text(): string {
      match this
      case ExitError(_, t) => t
      case StartError(t) => t
    }
  }

  /** The result of one attempt to run a program. */
  datatype RunOutcome = Finished | Failed(err: RunError)

  // ---------------------------------------------------------------------------
  // Failure classification (isResourceLockedError)
  // ---------------------------------------------------------------------------

  /** Texts that signal lock contention. */
  const LockMessages: seq<string> :=
    ["unable to lock database", "failed to lock", "resource temporarily unavailable"]

  /** The lock-file patterns, as the literal text an unanchored match needs:
      `db\.lck` escapes the dot, and the trailing `.*` of `/var/lock/.*` may
      match the empty string (see `LockFilePatternIsSubstring`). */
  const LockFilePatterns: seq<string> := ["/var/lib/pacman/db.lck", "/tmp/lockfile", "/var/lock/"]

  /** Some pattern of `patterns` occurs somewhere in `text`. */
  ghost predicate MentionsAny(text: string, patterns: seq<string>) {
    exists k: nat, i: nat :: k < |patterns| && OccursAt(text, patterns[k], i)
  }

  /** Whether `text` contains one of `patterns`, trying them in order. */
  function ContainsAny(text: string, patterns: seq<string>): (b: bool)
    ensures b <==> MentionsAny(text, patterns)
  {
    if |patterns| == 0 then false
    else if Contains(text, patterns[0]) then true
    else
      var rest := ContainsAny(text, patterns[1..]);
      assert rest ==> MentionsAny(text, patterns) by {
        if rest {
          var k: nat, i: nat :| k < |patterns[1..]| && OccursAt(text, patterns[1..][k], i);
          assert OccursAt(text, patterns[k + 1], i);
        }
      }
      assert MentionsAny(text, patterns) ==> rest by {
        if MentionsAny(text, patterns) {
          var k: nat, i: nat :| k < |patterns| && OccursAt(text, patterns[k], i);
          assert k != 0;
          assert OccursAt(text, patterns[1..][k - 1], i);
        }
      }
      rest
  }

  /** `isResourceLockedError`: a failure is classified as a locked resource
      when the process exited with status 1 (whatever its text), or when the
      error text contains a lock message or a lock-file path. */
  function IsResourceLockedError(e: RunError): (locked: bool)
    ensures locked <==>
      (e.ExitError? && e.code == 1)
      || MentionsAny(e.Text(), LockMessages)
      || MentionsAny(e.Text(), LockFilePatterns)
  {
    if e.ExitError? && e.code == 1 then true
    else ContainsAny(e.Text(), LockMessages) || ContainsAny(e.Text(), LockFilePatterns)
  }

  /** Go's `.` (without the `s` flag) matches any character but newline, so
      `s[a..b]` is matched by `.*`. */
  predicate DotStarMatches(s: string, a: nat, b: nat) {
    a <= b <= |s| && forall k :: a <= k < b ==> s[k] != '\n'
  }

  /** The unanchored regular expression `lit.*` matches `s`, with the literal
      at `i` and the `.*` ending at `j`. */
  predicate LiteralDotStarAt(s: string, lit: string, i: nat, j: nat) {
    OccursAt(s, lit, i) && DotStarMatches(s, i + |lit|, j)
  }

  /** An unanchored match of `lit.*` succeeds exactly when `lit` is a
      substring, so `/var/lock/.*` classifies like the substring `/var/lock/`. */
  lemma LockFilePatternIsSubstring(s: string, lit: string)
    ensures (exists i: nat, j: nat :: LiteralDotStarAt(s, lit, i, j)) <==> Contains(s, lit)
  {
    if Contains(s, lit) {
      var i: nat :| OccursAt(s, lit, i);
      assert LiteralDotStarAt(s, lit, i, i + |lit|);
    }
  }

  /** The classifier on a failure that could not even start the process: only
      the text matters. */
  lemma StartErrorClassifiedByTextOnly(t: string, code: int)
    requires code != 1
    ensures IsResourceLockedError(StartError(t)) <==> IsResourceLockedError(ExitError(code, t))
  {
  }

  /** Two concrete classifier cases: exit status 1 with generic
      text, and a lock message in an error that never started a process, are
      both lock failures. */
  lemma ClassifierLockExamples()
    ensures IsResourceLockedError(ExitError(1, "exit status 1"))
    ensures IsResourceLockedError(StartError("error: unable to lock database"))
  {
    DatabaseLockMentioned();
  }

  lemma DatabaseLockMentioned()
    ensures MentionsAny("error: unable to lock database", LockMessages)
  {
    var t := "error: " + LockMessages[0];
    assert t[7..30] == LockMessages[0];
    assert OccursAt(t, LockMessages[0], 7);
    assert t == "error: unable to lock database";
  }

  /** An unmatched error text with an exit status other than 1 is a
      permanent failure. */
  lemma ClassifierPermanentExample()
    ensures !IsResourceLockedError(ExitError(2, "exit status 2"))
  {
    var t := "exit status 2";
    assert forall k :: 0 <= k < |t| ==> t[k] != '/';
    forall k: nat, i: nat | k < |LockMessages|
      ensures !OccursAt(t, LockMessages[k], i)
    {
      assert |LockMessages[k]| > |t|;
    }
    forall k: nat, i: nat | k < |LockFilePatterns| && i + |LockFilePatterns[k]| <= |t|
      ensures !OccursAt(t, LockFilePatterns[k], i)
    {
      assert LockFilePatterns[k][0] == '/';
      assert t[i..i + |LockFilePatterns[k]|][0] == t[i];
    }
  }

  // ---------------------------------------------------------------------------
  // Executing the queue (ExecuteQueue)
  // ---------------------------------------------------------------------------

  /** The argument vector handed to the operating system: `sudo` followed by
      the program's path when it needs elevation, the path alone otherwise,
      then the program's arguments. */
  function Argv(p: Program): (argv: seq<string>)
    ensures |argv| == |p.args| + (if p.requireSudo then 2 else 1)
    ensures p.requireSudo ==> argv[..2] == ["sudo", p.path]
    ensures !p.requireSudo ==> argv[0] == p.path
    ensures Unwrap(argv, p.requireSudo) == (p.path, p.args)
  {
    var inner := [p.path] + p.args;
    var argv := if p.requireSudo then ["sudo"] + inner else inner;
    assert p.requireSudo ==> argv[2..] == p.args;
    assert !p.requireSudo ==> argv[1..] == p.args;
    argv
  }

  /** The program path and arguments an argument vector runs, once the `sudo`
      wrapper (if `elevated`) is removed. */
  function Unwrap(argv: seq<string>, elevated: bool): (string, seq<string>) {
    if elevated then
      if |argv| < 2 then ("", []) else (argv[1], argv[2..])
    else
      if |argv| < 1 then ("", []) else (argv[0], argv[1..])
  }

  /** Whether a failed attempt sends its program back to the tail. */
  predicate Requeues(o: RunOutcome) {
    o.Failed? && IsResourceLockedError(o.err)
  }

  /** One execution attempt: which program, how it was invoked, what came of it
      and whether it went back into the queue. */
  datatype Attempt = Attempt(program: Program, argv: seq<string>, outcome: RunOutcome, requeued: bool)

  datatype StepResult = StepResult(queue: seq<Program>, attempt: Attempt)

  /** Rotating `q` left by `k` places. */
  function Rotate<T>(q: seq<T>, k: nat): seq<T>
    requires k <= |q|
  {
    q[k..] + q[..k]
  }

  /** One iteration of the `ExecuteQueue` loop on a non-empty queue: pop the
      head, run it, and append it again only when the failure is classified
      as a locked resource. */
  function Step(q: seq<Program>, o: RunOutcome): (r: StepResult)
    requires |q| > 0
    ensures r.attempt.program == q[0] && r.attempt.outcome == o
    ensures r.attempt.argv == Argv(q[0])
    ensures r.attempt.requeued <==> o.Failed? && IsResourceLockedError(o.err)
    ensures |r.queue| == if r.attempt.requeued then |q| else |q| - 1
    ensures r.queue[..|q| - 1] == q[1..]
    ensures r.attempt.requeued ==> r.queue == Rotate(q, 1) && multiset(r.queue) == multiset(q)
    ensures !r.attempt.requeued ==> multiset(r.queue) + multiset{q[0]} == multiset(q)
  {
    var p := q[0];
    var again := Requeues(o);
    assert q == [p] + q[1..];
    StepResult(if again then q[1..] + [p] else q[1..], Attempt(p, Argv(p), o, again))
  }

  /** How a run of the executor ended: the queue emptied, or the outcome trace
      ran out while programs were still queued (the real loop would go on). */
  datatype RunResult =
    | Drained(attempts: seq<Attempt>)
    | Unfinished(queue: seq<Program>, attempts: seq<Attempt>)
  {
    /** The programs still queued when the run ended. */
    function Remaining(): seq<Program> {
      if Drained? then [] else queue
    }
  }

  /** `ExecuteQueue`, driven by `trace`: the k-th attempt gets outcome
      `trace[k]`. The loop leaves only through an empty queue; a run that is
      not drained has used up the whole trace. */
  function ExecuteQueue(q: seq<Program>, trace: seq<RunOutcome>): (r: RunResult)
    ensures |r.attempts| <= |trace|
    ensures forall k :: 0 <= k < |r.attempts| ==> r.attempts[k].outcome == trace[k]
    ensures r.Unfinished? ==> |r.queue| > 0 && |r.attempts| == |trace|
    ensures |q| > 0 && |trace| > 0 ==> |r.attempts| > 0 && r.attempts[0].program == q[0]
    decreases |trace|
  {
    if |q| == 0 then Drained([])
    else if |trace| == 0 then Unfinished(q, [])
    else
      var s := Step(q, trace[0]);
      var rest := ExecuteQueue(s.queue, trace[1..]);
      match rest
      case Drained(a) => Drained([s.attempt] + a)
      case Unfinished(q', a) => Unfinished(q', [s.attempt] + a)
  }

  /** The programs whose attempt was their last (success or permanent failure). */
  function Retired(attempts: seq<Attempt>): seq<Program> {
    if |attempts| == 0 then []
    else (if attempts[0].requeued then [] else [attempts[0].program]) + Retired(attempts[1..])
  }

  /** No program is lost or duplicated: those retired plus those still queued
      are exactly the programs the run started with. */
  lemma {:induction false} ExecuteQueueConserves(q: seq<Program>, trace: seq<RunOutcome>)
    ensures multiset(Retired(ExecuteQueue(q, trace).attempts)) + multiset(ExecuteQueue(q, trace).Remaining())
         == multiset(q)
    decreases |trace|
  {
    if |q| == 0 || |trace| == 0 {
    } else {
      var s := Step(q, trace[0]);
      var rest := ExecuteQueue(s.queue, trace[1..]);
      ExecuteQueueConserves(s.queue, trace[1..]);
      var r := ExecuteQueue(q, trace);
      assert r.attempts == [s.attempt] + rest.attempts;
      assert r.attempts[1..] == rest.attempts;
      assert r.Remaining() == rest.Remaining();
    }
  }

  /** A drained run retired every queued program exactly once. */
  lemma DrainedRetiresEachOnce(q: seq<Program>, trace: seq<RunOutcome>)
    requires ExecuteQueue(q, trace).Drained?
    ensures multiset(Retired(ExecuteQueue(q, trace).attempts)) == multiset(q)
  {
    ExecuteQueueConserves(q, trace);
  }

  /** A retired program has an attempt that was not re-queued. */
  lemma {:induction false} RetiredHasFinalAttempt(attempts: seq<Attempt>, p: Program)
    requires p in Retired(attempts)
    ensures exists j :: 0 <= j < |attempts| && attempts[j].program == p && !attempts[j].requeued
    decreases |attempts|
  {
    if attempts[0].requeued || attempts[0].program != p {
      assert Retired(attempts) == (if attempts[0].requeued then [] else [attempts[0].program]) + Retired(attempts[1..]);
      assert p in Retired(attempts[1..]);
      RetiredHasFinalAttempt(attempts[1..], p);
      var j :| 0 <= j < |attempts[1..]| && attempts[1..][j].program == p && !attempts[1..][j].requeued;
      assert attempts[j + 1] == attempts[1..][j];
    }
  }

  /** Attempt `k` is followed by a later attempt of the same program. */
  predicate AttemptedAgain(attempts: seq<Attempt>, k: nat)
    requires k < |attempts|
  {
    exists k' :: k < k' < |attempts| && attempts[k'].program == attempts[k].program
  }

  /** In any queue, a program sent back after a lock failure is not lost:
      before the loop exits, the same program is attempted again. */
  lemma RequeuedProgramsReturn(q: seq<Program>, trace: seq<RunOutcome>)
    requires ExecuteQueue(q, trace).Drained?
    ensures var attempts := ExecuteQueue(q, trace).attempts;
      forall k :: 0 <= k < |attempts| && attempts[k].requeued ==> AttemptedAgain(attempts, k)
  {
    var attempts := ExecuteQueue(q, trace).attempts;
    forall k | 0 <= k < |attempts| && attempts[k].requeued
      ensures AttemptedAgain(attempts, k)
    {
      RequeuedIsAttemptedAgain(q, trace, k);
    }
  }

  /** Attempt `k` of a drained run, when re-queued, is followed by a later
      attempt of the same program. */
  lemma {:induction false} RequeuedIsAttemptedAgain(q: seq<Program>, trace: seq<RunOutcome>, k: nat)
    requires ExecuteQueue(q, trace).Drained?
    requires k < |ExecuteQueue(q, trace).attempts|
    requires ExecuteQueue(q, trace).attempts[k].requeued
    ensures AttemptedAgain(ExecuteQueue(q, trace).attempts, k)
    decreases |trace|, 1
  {
    if k == 0 {
      FirstRequeuedIsAttemptedAgain(q, trace);
    } else {
      LaterRequeuedIsAttemptedAgain(q, trace, k);
    }
  }

  lemma {:induction false} LaterRequeuedIsAttemptedAgain(q: seq<Program>, trace: seq<RunOutcome>, k: nat)
    requires ExecuteQueue(q, trace).Drained?
    requires 0 < k < |ExecuteQueue(q, trace).attempts|
    requires ExecuteQueue(q, trace).attempts[k].requeued
    ensures AttemptedAgain(ExecuteQueue(q, trace).attempts, k)
    decreases |trace|, 0
  {
    var first, q' := UnfoldDrained(q, trace);
    var rest := ExecuteQueue(q', trace[1..]).attempts;
    assert rest[k - 1] == ExecuteQueue(q, trace).attempts[k];
    RequeuedIsAttemptedAgain(q', trace[1..], k - 1);
    AttemptedAgainShift(first, rest, k - 1);
  }

  lemma AttemptedAgainShift(first: Attempt, rest: seq<Attempt>, k: nat)
    requires k < |rest| && AttemptedAgain(rest, k)
    ensures AttemptedAgain([first] + rest, k + 1)
  {
    var k' :| k < k' < |rest| && rest[k'].program == rest[k].program;
    assert ([first] + rest)[k' + 1] == rest[k'];
  }

  /** A drained run with at least one attempt is its first attempt followed
      by a drained run of the queue that attempt left; a re-queued first
      attempt leaves the queue rotated by one. */
  lemma UnfoldDrained(q: seq<Program>, trace: seq<RunOutcome>) returns (first: Attempt, q': seq<Program>)
    requires ExecuteQueue(q, trace).Drained?
    requires |ExecuteQueue(q, trace).attempts| > 0
    ensures |q| > 0 && |trace| > 0 && first.program == q[0]
    ensures first.requeued ==> q' == Rotate(q, 1)
    ensures ExecuteQueue(q', trace[1..]).Drained?
    ensures ExecuteQueue(q, trace).attempts == [first] + ExecuteQueue(q', trace[1..]).attempts
  {
    var s := Step(q, trace[0]);
    first, q' := s.attempt, s.queue;
  }

  lemma FirstRequeuedIsAttemptedAgain(q: seq<Program>, trace: seq<RunOutcome>)
    requires ExecuteQueue(q, trace).Drained?
    requires |ExecuteQueue(q, trace).attempts| > 0
    requires ExecuteQueue(q, trace).attempts[0].requeued
    ensures AttemptedAgain(ExecuteQueue(q, trace).attempts, 0)
  {
    var first, q' := UnfoldDrained(q, trace);
    var rest := ExecuteQueue(q', trace[1..]).attempts;
    DrainedRetiresEachOnce(q', trace[1..]);
    assert q'[|q| - 1] == q[0];
    assert q[0] in multiset(Retired(rest));
    RetiredHasFinalAttempt(rest, q[0]);
    var j :| 0 <= j < |rest| && rest[j].program == q[0] && !rest[j].requeued;
    assert ([first] + rest)[j + 1] == rest[j];
  }

  /** With no lock-classified failure among the first `|q|` outcomes, the
      queue is run once through in order and drains: one attempt per program,
      none re-queued. */
  lemma {:induction false} NoLockFailuresDrainInOrder(q: seq<Program>, trace: seq<RunOutcome>)
    requires |trace| >= |q|
    requires forall k :: 0 <= k < |q| ==> !Requeues(trace[k])
    ensures ExecuteQueue(q, trace).Drained?
    ensures |ExecuteQueue(q, trace).attempts| == |q|
    ensures forall k :: 0 <= k < |q| ==>
      ExecuteQueue(q, trace).attempts[k].program == q[k] && !ExecuteQueue(q, trace).attempts[k].requeued
    decreases |q|
  {
    if |q| > 0 {
      var s := Step(q, trace[0]);
      assert s.queue == q[1..];
      forall k | 0 <= k < |q[1..]| ensures !Requeues(trace[1..][k]) {
        assert trace[1..][k] == trace[k + 1];
      }
      NoLockFailuresDrainInOrder(q[1..], trace[1..]);
    }
  }

  /** `attempts` are `n` lock failures of `p` followed by one final attempt. */
  predicate RetriedThenRetired(attempts: seq<Attempt>, p: Program, n: nat) {
    && |attempts| == n + 1
    && (forall k :: 0 <= k <= n ==> attempts[k].program == p)
    && (forall k :: 0 <= k <= n ==> (attempts[k].requeued <==> k < n))
  }

  /** A lone program whose first `n` attempts fail on a lock and whose next
      does not is attempted exactly `n + 1` times and then leaves the queue. */
  lemma {:induction false} RetryConvergence(p: Program, trace: seq<RunOutcome>, n: nat)
    requires n < |trace|
    requires forall k :: 0 <= k < n ==> Requeues(trace[k])
    requires !Requeues(trace[n])
    ensures ExecuteQueue([p], trace).Drained?
    ensures RetriedThenRetired(ExecuteQueue([p], trace).attempts, p, n)
    decreases n
  {
    var first := UnfoldLone(p, trace);
    if n > 0 {
      DropFirstOutcome(trace, n);
      RetryConvergence(p, trace[1..], n - 1);
      RetriedThenRetiredCons(first, ExecuteQueue([p], trace[1..]).attempts, p, n);
    }
  }

  /** The outcomes after the first keep their order, one place earlier. */
  lemma DropFirstOutcome(trace: seq<RunOutcome>, n: nat)
    requires 0 < n < |trace|
    requires forall k :: 0 <= k < n ==> Requeues(trace[k])
    requires !Requeues(trace[n])
    ensures forall k :: 0 <= k < n - 1 ==> Requeues(trace[1..][k])
    ensures !Requeues(trace[1..][n - 1])
  {
    forall k | 0 <= k < n - 1 ensures trace[1..][k] == trace[k + 1] {
    }
  }

  /** One step of a lone program: it is attempted, and then either the run
      goes on with the same lone program or the queue is empty. */
  lemma UnfoldLone(p: Program, trace: seq<RunOutcome>) returns (first: Attempt)
    requires |trace| > 0
    ensures first.program == p && (first.requeued <==> Requeues(trace[0]))
    ensures Requeues(trace[0]) ==>
      ExecuteQueue([p], trace).Drained? == ExecuteQueue([p], trace[1..]).Drained?
      && ExecuteQueue([p], trace).attempts == [first] + ExecuteQueue([p], trace[1..]).attempts
    ensures !Requeues(trace[0]) ==> ExecuteQueue([p], trace) == Drained([first])
  {
    var s := Step([p], trace[0]);
    first := s.attempt;
    if Requeues(trace[0]) {
      assert s.queue == [p];
    } else {
      assert s.queue == [];
    }
  }

  lemma RetriedThenRetiredCons(first: Attempt, rest: seq<Attempt>, p: Program, n: nat)
    requires n > 0 && first.program == p && first.requeued
    requires RetriedThenRetired(rest, p, n - 1)
    ensures RetriedThenRetired([first] + rest, p, n)
  {
    var all := [first] + rest;
    assert forall k :: 0 < k <= n ==> all[k] == rest[k - 1];
  }

  lemma RotateStep<T>(q: seq<T>, k: nat)
    requires 0 < |q| && k < |q|
    ensures Rotate(Rotate(q, 1), k) == Rotate(q, (k + 1) % |q|)
  {
    var r := Rotate(q, 1);
    assert r[k..] == q[k + 1..] + q[..1];
    assert r[..k] == q[1..k + 1];
    assert q[..k + 1] == q[..1] + q[1..k + 1];
    assert Rotate(r, k) == q[k + 1..] + q[..k + 1];
    if k + 1 == |q| {
      ModOf(k + 1, 1, 0, |q|);
      assert q[k + 1..] + q[..k + 1] == q;
      assert Rotate(q, 0) == q;
    } else {
      ModOf(k + 1, 0, k + 1, |q|);
    }
  }

  lemma ModSucc(m: nat, n: nat)
    requires n > 0
    ensures (m % n + 1) % n == (m + 1) % n
  {
    var d := m / n;
    var a := m % n;
    assert m == d * n + a;
    if a + 1 < n {
      ModOf(a + 1, 0, a + 1, n);
      ModOf(m + 1, d, a + 1, n);
    } else {
      ModOf(a + 1, 1, 0, n);
      MulSucc(d, n);
      ModOf(m + 1, d + 1, 0, n);
    }
  }

  lemma ModOf(x: int, d: int, r: int, n: int)
    requires n > 0 && 0 <= r < n && x == d * n + r
    ensures x % n == r
  {
    var d' := x / n;
    var r' := x % n;
    assert x == d' * n + r';
    MulAtLeast(d - d', n);
    MulAtLeast(d' - d, n);
  }

  lemma MulSucc(d: int, n: int)
    ensures (d + 1) * n == d * n + n
  {
  }

  /** A positive multiple of `n` is at least `n`. */
  lemma MulAtLeast(a: int, n: int)
    requires n > 0
    ensures a >= 1 ==> a * n >= n
  {
  }

  /** While every attempt fails on a lock the loop never ends, and after `m`
      attempts the queue has been rotated by `m` places: each program keeps
      getting its turn, none is dropped. */
  lemma {:induction false} AllLockedRotates(q: seq<Program>, trace: seq<RunOutcome>)
    requires |q| > 0
    requires forall k :: 0 <= k < |trace| ==> Requeues(trace[k])
    ensures ExecuteQueue(q, trace).Unfinished?
    ensures ExecuteQueue(q, trace).queue == Rotate(q, |trace| % |q|)
    decreases |trace|
  {
    if |trace| == 0 {
      assert Rotate(q, 0) == q;
    } else {
      forall k | 0 <= k < |trace[1..]| ensures Requeues(trace[1..][k]) {
        assert trace[1..][k] == trace[k + 1];
      }
      UnfoldRequeued(q, trace);
      AllLockedRotates(Rotate(q, 1), trace[1..]);
      RotateThenRotate(q, |trace[1..]|);
    }
  }

  /** A first attempt that re-queues leaves the rest of the run to the
      rotated queue. */
  lemma UnfoldRequeued(q: seq<Program>, trace: seq<RunOutcome>)
    requires |q| > 0 && |trace| > 0 && Requeues(trace[0])
    ensures ExecuteQueue(q, trace).Unfinished? == ExecuteQueue(Rotate(q, 1), trace[1..]).Unfinished?
    ensures ExecuteQueue(q, trace).Remaining() == ExecuteQueue(Rotate(q, 1), trace[1..]).Remaining()
  {
    assert Step(q, trace[0]).queue == Rotate(q, 1);
  }

  /** Rotating by one and then by `m` places (mod the length) is rotating by
      `m + 1` places. */
  lemma RotateThenRotate<T>(q: seq<T>, m: nat)
    requires |q| > 0
    ensures Rotate(Rotate(q, 1), m % |q|) == Rotate(q, (m + 1) % |q|)
  {
    RotateStep(q, m % |q|);
    ModSucc(m, |q|);
  }

  // ---------------------------------------------------------------------------
  // Building programs from the menu (AddProgram)
  // ---------------------------------------------------------------------------

  /** The `i`-th answer typed after the menu choice; reading past the end of
      the input yields the empty string, as `bufio.Scanner.Text` does. */
  function Answer(answers: seq<string>, i: nat): string {
    if i < |answers| then answers[i] else ""
  }

  /** How many answer lines each menu choice prompts for. */
  function PromptCount(choice: string): nat {
    if choice == "2" || choice == "3" then 1
    else if choice == "4" then 4
    else 0
  }

  /** `splitArgs`, and the custom-arguments rule: an empty line gives no
      arguments, anything else is split on white space. */
  function CustomArgs(line: string): (args: seq<string>)
    ensures AllFields(args)
    ensures Concat(args) == StripSpace(line)
    ensures exists ws :: SplitsAt(line, ws, args)
  {
    if line == "" then
      assert SplitsAt(line, [""], []);
      []
    else
      FieldsCharacterized(line, Fields(line));
      Fields(line)
  }

  /** The sudo answer, `strings.ToLower(answer) == "yes"`: "yes" in any
      mixture of upper and lower case, and nothing else. */
  function SaysYes(answer: string): (yes: bool)
    ensures yes <==>
      |answer| == 3 && (answer[0] == 'y' || answer[0] == 'Y')
      && (answer[1] == 'e' || answer[1] == 'E') && (answer[2] == 's' || answer[2] == 'S')
  {
    LowersToYes(answer);
    ToLower(answer) == "yes"
  }

  lemma LowersToYes(a: string)
    ensures ToLower(a) == "yes" <==>
      |a| == 3 && (a[0] == 'y' || a[0] == 'Y') && (a[1] == 'e' || a[1] == 'E') && (a[2] == 's' || a[2] == 'S')
  {
    if |a| == 3 {
      var l := ToLower(a);
      if (a[0] == 'y' || a[0] == 'Y') && (a[1] == 'e' || a[1] == 'E') && (a[2] == 's' || a[2] == 'S') {
        assert l == "yes";
      }
    }
  }

  /** The program a menu choice builds from its answers, or nothing for an
      invalid choice. */
  function Template(choice: string, answers: seq<string>): (r: Option<Program>)
    ensures r.Some? <==> choice == "1" || choice == "2" || choice == "3" || choice == "4"
    ensures r.Some? && choice != "4" ==> r.value.path == "/usr/bin/pacman" && r.value.requireSudo
    ensures choice == "4" ==>
      r.value.name == Answer(answers, 0) && r.value.path == Answer(answers, 1)
      && r.value.args == CustomArgs(Answer(answers, 2)) && r.value.requireSudo == SaysYes(Answer(answers, 3))
  {
    match choice
    case "1" => Some(Program("SystemUpdate", "/usr/bin/pacman", ["-Syu"], true))
    case "2" => Some(Program("ArchInstall", "/usr/bin/pacman", ["-S", "--noconfirm", Answer(answers, 0)], true))
    case "3" => Some(Program("ArchRemove", "/usr/bin/pacman", ["-R", Answer(answers, 0)], true))
    case "4" => Some(Program(Answer(answers, 0), Answer(answers, 1), CustomArgs(Answer(answers, 2)),
                             SaysYes(Answer(answers, 3))))
    case _ => None
  }

  /** `AddProgram`: a valid choice appends exactly one program at the tail;
      an invalid one leaves the queue as it was. */
  function AddProgram(q: seq<Program>, choice: string, answers: seq<string>): (q': seq<Program>)
    ensures Template(choice, answers).None? ==> q' == q
    ensures Template(choice, answers).Some? ==>
      |q'| == |q| + 1 && q'[..|q|] == q && q'[|q|] == Template(choice, answers).value
  {
    match Template(choice, answers)
    case None => q
    case Some(p) => q + [p]
  }

  /** The fixed pacman templates. */
  lemma PacmanTemplates(answers: seq<string>)
    ensures Template("1", answers) == Some(Program("SystemUpdate", "/usr/bin/pacman", ["-Syu"], true))
    ensures Template("2", answers).value.args == ["-S", "--noconfirm", Answer(answers, 0)]
    ensures Template("3", answers).value.args == ["-R", Answer(answers, 0)]
  {
  }

  /** A custom program's arguments are the whitespace-separated words of the
      answer: fields, and the typed line is recovered, up to spacing, by
      joining them. */
  lemma {:induction false} CustomArgsRoundTrip(args: seq<string>)
    requires AllFields(args)
    ensures CustomArgs(Join(args, " ")) == args
  {
    FieldsJoinRoundTrip(args);
  }

  // ---------------------------------------------------------------------------
  // The command loop (main)
  // ---------------------------------------------------------------------------

  /** What an `add` command reads after its own line: the menu choice, the
      answers that choice prompts for, and the input left over. Reading past
      the end of the input yields empty lines. */
  function ReadAdd(rest: seq<string>): (r: (string, seq<string>, seq<string>))
    ensures |rest| == 0 ==> r == ("", [], [])
    ensures |rest| > 0 ==> rest == [r.0] + r.1 + r.2
    ensures |r.1| <= PromptCount(r.0)
    ensures |r.1| < PromptCount(r.0) ==> r.2 == []
    ensures forall i :: 0 <= i < PromptCount(r.0) ==> Answer(r.1, i) == Answer(rest, i + 1)
  {
    if |rest| == 0 then ("", [], [])
    else
      var n := PromptCount(rest[0]);
      var after := rest[1..];
      if n <= |after| then (rest[0], after[..n], after[n..]) else (rest[0], after, [])
  }

  /** How the command loop ended: `exit`, end of input, or inside a `run`
      whose outcome trace ran out (the real loop would still be executing). */
  datatype Session =
    | Exited(queue: seq<Program>)
    | EndOfInput(queue: seq<Program>)
    | StillRunning(queue: seq<Program>)

  /** The command loop over the input lines, with `outcomes` the results of
      every program run it starts, in order. An `add` line is followed by the
      menu choice and then by the answers that choice prompts for. */
  function Repl(q: seq<Program>, lines: seq<string>, outcomes: seq<RunOutcome>): (s: Session)
    ensures s.StillRunning? ==> |s.queue| > 0
    decreases |lines|
  {
    if |lines| == 0 then EndOfInput(q)
    else
      var rest := lines[1..];
      match lines[0]
      case "add" =>
        var (choice, answers, rest') := ReadAdd(rest);
        Repl(AddProgram(q, choice, answers), rest', outcomes)
      case "run" =>
        (match ExecuteQueue(q, outcomes)
         case Drained(attempts) => Repl([], rest, outcomes[|attempts|..])
         case Unfinished(q', _) => StillRunning(q'))
      case "exit" => Exited(q)
      case _ => Repl(q, rest, outcomes)
  }

  /** `run` drains the queue with the next outcomes, and the loop goes on
      with an empty queue and the outcomes that remain. */
  lemma RunDrainsThenContinues(q: seq<Program>, rest: seq<string>, outcomes: seq<RunOutcome>, a: seq<Attempt>)
    requires ExecuteQueue(q, outcomes) == Drained(a)
    ensures Repl(q, ["run"] + rest, outcomes) == Repl([], rest, outcomes[|a|..])
  {
    assert (["run"] + rest)[1..] == rest;
  }

  /** `exit` stops the loop at once: nothing after it is read. */
  lemma ExitStops(q: seq<Program>, rest: seq<string>, outcomes: seq<RunOutcome>)
    ensures Repl(q, ["exit"] + rest, outcomes) == Exited(q)
  {
  }

  /** `list`, and any line that is not a command, leave the queue alone and
      the loop goes on to the next line. */
  lemma OtherCommandsContinue(q: seq<Program>, line: string, rest: seq<string>, outcomes: seq<RunOutcome>)
    requires line != "add" && line != "run" && line != "exit"
    ensures Repl(q, [line] + rest, outcomes) == Repl(q, rest, outcomes)
  {
    assert ([line] + rest)[1..] == rest;
  }

  /** Only `add` and `run` change the queue: input without either ends with
      the queue it started with. */
  lemma {:induction false} QueueChangesOnlyByAddOrRun(q: seq<Program>, lines: seq<string>, outcomes: seq<RunOutcome>)
    requires forall k :: 0 <= k < |lines| ==> lines[k] != "add" && lines[k] != "run"
    ensures Repl(q, lines, outcomes).queue == q
    decreases |lines|
  {
    if |lines| > 0 && lines[0] != "exit" {
      assert lines[0] != "add" && lines[0] != "run";
      forall k | 0 <= k < |lines[1..]| ensures lines[1..][k] != "add" && lines[1..][k] != "run" {
        assert lines[1..][k] == lines[k + 1];
      }
      QueueChangesOnlyByAddOrRun(q, lines[1..], outcomes);
    }
  }

  /** Without `run`, programs are only ever appended: the starting queue is a
      prefix of the final one. */
  lemma {:induction false} WithoutRunQueueOnlyGrows(q: seq<Program>, lines: seq<string>, outcomes: seq<RunOutcome>)
    requires forall k :: 0 <= k < |lines| ==> lines[k] != "run"
    ensures q <= Repl(q, lines, outcomes).queue
    decreases |lines|
  {
    if |lines| > 0 && lines[0] != "exit" {
      var rest := lines[1..];
      if lines[0] == "add" {
        var (choice, answers, rest') := ReadAdd(rest);
        var q' := AddProgram(q, choice, answers);
        forall k | 0 <= k < |rest'| ensures rest'[k] != "run" {
          assert rest'[k] == lines[k + 1 + |rest| - |rest'|];
        }
        WithoutRunQueueOnlyGrows(q', rest', outcomes);
        assert q <= q';
      } else {
        forall k | 0 <= k < |rest| ensures rest[k] != "run" {
          assert rest[k] == lines[k + 1];
        }
        WithoutRunQueueOnlyGrows(q, rest, outcomes);
      }
    }
  }
}

=== FILE: jobs.dfy ===
/** Bulk repository processing: the configuration records, the git commands
    of pkg/repository/repo.go, the per-repository outcome of
    pkg/cli/command.go and the collected result of `RunJobs`.

    Running git is not modelled: each command's captured output and error
    text are inputs. */
module Jobs {
  import opened Wrappers
  import opened Strings

  /** One repository to process (configs.Repository). */
  datatype Repository = Repository(url: string, branch: string)

  /** The run configuration (configs.Config). */
  datatype Config = Config(
    repositories: seq<Repository>,
    threads: int,
    logFile: string,
    workDir: string,
    debug: bool,
    verbose: bool)

  /** The outcome reported for one repository. */
  datatype JobStatus = JobStatus(repository: string, stage: string, success: bool, message: string)

  /** A child-process invocation: executable and argument list. */
  datatype Command = Command(exe: string, args: seq<string>)

  /** What a command gave back: its captured output, and the error text when
      it failed. */
  datatype ProcessResult = ProcessResult(output: string, error: Option<string>)

  // ---------------------------------------------------------------------------
  // pkg/repository/repo.go
  // ---------------------------------------------------------------------------

  /** The arguments of `git clone`: the URL, then `-b` and the branch when one
      is configured. */
  function CloneArgs(repo: Repository): (args: seq<string>)
    ensures |args| >= 2 && args[..2] == ["clone", repo.url]
    ensures repo.branch == "" <==> |args| == 2
    ensures repo.branch != "" ==> args == ["clone", repo.url, "-b", repo.branch]
  {
    var args := ["clone", repo.url];
    if repo.branch != "" then args + ["-b", repo.branch] else args
  }

  /** Reading a repository back from a clone argument vector. */
  function ParseCloneArgs(args: seq<string>): Option<Repository> {
    if |args| == 2 && args[0] == "clone" then Some(Repository(args[1], ""))
    else if |args| == 4 && args[0] == "clone" && args[2] == "-b" && args[3] != "" then
      Some(Repository(args[1], args[3]))
    else None
  }

  /** The clone arguments determine the repository: nothing is lost in
      building them. */
  lemma CloneArgsRoundTrip(repo: Repository)
    ensures ParseCloneArgs(CloneArgs(repo)) == Some(repo)
  {
  }

  /** The clone command. */
  function CloneCommand(repo: Repository): Command {
    Command("git", CloneArgs(repo))
  }

  /** Joined with single spaces, the clone arguments read as the command
      line one would type. */
  lemma JoinCloneArgs(repo: Repository)
    ensures Join(CloneArgs(repo), " ") ==
      "clone " + repo.url + (if repo.branch == "" then "" else " -b " + repo.branch)
  {
    var args := CloneArgs(repo);
    if repo.branch == "" {
      assert args[1..] == [repo.url];
      assert Join(args, " ") == "clone" + " " + repo.url;
    } else {
      assert args[1..][1..] == ["-b", repo.branch];
      assert args[1..][1..][1..] == [repo.branch];
      assert Join(args[1..][1..], " ") == "-b" + " " + repo.branch;
      assert Join(args[1..], " ") == repo.url + " " + ("-b" + " " + repo.branch);
      assert Join(args, " ") == "clone" + " " + (repo.url + " " + ("-b" + " " + repo.branch));
    }
  }

  /** The line logged before cloning spells out the full invocation. */
  function CloneLogLine(repo: Repository): (line: string)
    ensures line ==
      "Executing git clone command: git clone " + repo.url
      + (if repo.branch == "" then "" else " -b " + repo.branch)
  {
    JoinCloneArgs(repo);
    "Executing git clone command: git " + Join(CloneArgs(repo), " ")
  }

  /** One git invocation as `Clone` and `Status` perform it: the command, the
      lines logged around it, the captured output and the error. */
  datatype GitCall = GitCall(command: Command, log: seq<string>, output: string, error: Option<string>)

  /** `Clone`: logs the command line, runs it, logs the captured output and,
      when it failed, the error line as the source writes it (with the URL
      in the branch slot); the error is returned. */
  function Clone(repo: Repository, run: ProcessResult): (c: GitCall)
    ensures c.command.exe == "git" && ParseCloneArgs(c.command.args) == Some(repo)
    ensures c.output == run.output && c.error == run.error
    ensures |c.log| == if run.error.Some? then 3 else 2
    ensures c.log[0] == CloneLogLine(repo) && c.log[1] == run.output
    ensures run.error.Some? ==> c.log[2] == CloneErrorLogAsWritten(repo, run.error.value)
  {
    CloneArgsRoundTrip(repo);
    var log := [CloneLogLine(repo), run.output];
    GitCall(CloneCommand(repo),
      match run.error
      case Some(e) => log + [CloneErrorLogAsWritten(repo, e)]
      case None => log,
      run.output, run.error)
  }

  /** The status command. */
  function StatusCommand(repo: Repository): Command {
    Command("git", ["status"])
  }

  /** `Status` runs `git status` with no argument taken from the
      repository. */
  lemma StatusIgnoresRepository(r1: Repository, r2: Repository, run: ProcessResult)
    ensures Status(r1, run).command == Status(r2, run).command == Command("git", ["status"])
  {
  }

  /** The line logged when `git status` fails. */
  function StatusErrorLog(repo: Repository, err: string): string {
    "Error executing git status command for repository: " + repo.url + ". Error: " + err
  }

  /** `Status`: runs `git status`, which takes no argument from the
      repository, logs and returns its captured output and its error. */
  function Status(repo: Repository, run: ProcessResult): (c: GitCall)
    ensures c.command == Command("git", ["status"])
    ensures c.output == run.output && c.error == run.error
    ensures |c.log| == if run.error.Some? then 3 else 2
    ensures c.log[0] == "Executing git status command" && c.log[1] == run.output
    ensures run.error.Some? ==> c.log[2] == StatusErrorLog(repo, run.error.value)
  {
    var log := ["Executing git status command", run.output];
    GitCall(StatusCommand(repo),
      match run.error
      case Some(e) => log + [StatusErrorLog(repo, e)]
      case None => log,
      run.output, run.error)
  }

  /** The log line written when a clone fails, as the source builds it: the
      URL is written where the branch belongs. */
  function CloneErrorLogAsWritten(repo: Repository, err: string): (line: string)
    ensures line == CloneErrorLog(Repository(repo.url, repo.url), err)
  {
    "Error executing git clone command for repository: " + repo.url + ", branch: " + repo.url + ". Error: " + err
  }

  /** The same log line with the branch in the branch slot. */
  function CloneErrorLog(repo: Repository, err: string): string {
    CloneErrorLogHead(repo.url) + repo.branch + CloneErrorLogTail(err)
  }

  function CloneErrorLogHead(url: string): string {
    "Error executing git clone command for repository: " + url + ", branch: "
  }

  function CloneErrorLogTail(err: string): string {
    ". Error: " + err
  }

  /** As written, the line never mentions the branch: two repositories with
      the same URL log the same line, whatever their branches. */
  lemma CloneErrorLogLosesBranch(url: string, b1: string, b2: string, err: string)
    ensures CloneErrorLogAsWritten(Repository(url, b1), err)
         == CloneErrorLogAsWritten(Repository(url, b2), err)
    ensures b1 != b2 ==> CloneErrorLog(Repository(url, b1), err) != CloneErrorLog(Repository(url, b2), err)
  {
    CloneErrorLogNamesBranch(Repository(url, b1), err);
    CloneErrorLogNamesBranch(Repository(url, b2), err);
  }

  /** The corrected line names the branch: it can be read back from the
      line, between the URL part and the error part. */
  lemma CloneErrorLogNamesBranch(repo: Repository, err: string)
    ensures var line := CloneErrorLog(repo, err);
      var lo := |CloneErrorLogHead(repo.url)|;
      lo + |CloneErrorLogTail(err)| <= |line|
      && line[lo..|line| - |CloneErrorLogTail(err)|] == repo.branch
  {
  }

  // ---------------------------------------------------------------------------
  // pkg/cli/command.go
  // ---------------------------------------------------------------------------

  /** The status reported for one repository, and the git commands run to
      obtain it. */
  datatype JobRun = JobRun(status: JobStatus, commands: seq<Command>)

  /** `processRepository`: clone, then (only if cloning worked) `git status`.
      Any failure is reported with stage "Cloning", including a failure of
      the status step. */
  function ProcessRepository(repo: Repository, clone: ProcessResult, status: ProcessResult): (r: JobRun)
    ensures r.status.repository == repo.url
    ensures r.status.success <==> clone.error.None? && status.error.None?
    ensures r.status.stage == if r.status.success then "Completed" else "Cloning"
    ensures r.status.success ==> r.status.message == ""
    ensures clone.error.Some? ==> r.status.message == clone.error.value && r.commands == [CloneCommand(repo)]
    ensures clone.error.None? ==> r.commands == [CloneCommand(repo), StatusCommand(repo)]
    ensures clone.error.None? && status.error.Some? ==> r.status.message == status.error.value
  {
    var c := Clone(repo, clone);
    match c.error
    case Some(err) => JobRun(JobStatus(repo.url, "Cloning", false, err), [c.command])
    case None =>
      var s := Status(repo, status);
      var commands := [c.command, s.command];
      match s.error
      case Some(err) => JobRun(JobStatus(repo.url, "Cloning", false, err), commands)
      case None => JobRun(JobStatus(repo.url, "Completed", true, ""), commands)
  }

  /** After a failed clone the status step is not attempted, so its result
      has no influence on the outcome. */
  lemma CloneFailureSkipsStatus(repo: Repository, clone: ProcessResult, s1: ProcessResult, s2: ProcessResult)
    requires clone.error.Some?
    ensures ProcessRepository(repo, clone, s1) == ProcessRepository(repo, clone, s2)
  {
  }

  /** Every command run for a repository is a `git` command, starting with
      the clone of that repository. */
  lemma OnlyGitIsRun(repo: Repository, clone: ProcessResult, status: ProcessResult)
    ensures var cs := ProcessRepository(repo, clone, status).commands;
      && 1 <= |cs| <= 2
      && cs[0].args[..2] == ["clone", repo.url]
      && forall k :: 0 <= k < |cs| ==> cs[k].exe == "git"
  {
  }

  /** The simulated results of one repository's two git commands. */
  datatype JobInput = JobInput(clone: ProcessResult, status: ProcessResult)

  /** The status of each configured repository, in configuration order. */
  function StatusesInOrder(repos: seq<Repository>, inputs: seq<JobInput>): (s: seq<JobStatus>)
    requires |inputs| == |repos|
    ensures |s| == |repos|
    ensures forall i :: 0 <= i < |repos| ==>
      s[i] == ProcessRepository(repos[i], inputs[i].clone, inputs[i].status).status
    ensures forall i :: 0 <= i < |repos| ==> s[i].repository == repos[i].url
  {
    if |repos| == 0 then []
    else
      [ProcessRepository(repos[0], inputs[0].clone, inputs[0].status).status]
      + StatusesInOrder(repos[1..], inputs[1..])
  }

  /** What `RunJobs` may return: with no worker (Threads <= 0) nothing is
      processed; otherwise every repository is processed once, and the
      statuses arrive in whatever order the workers finish. */
  ghost predicate IsRunJobsResult(config: Config, inputs: seq<JobInput>, results: seq<JobStatus>)
    requires |inputs| == |config.repositories|
  {
    if config.threads <= 0 then results == []
    else multiset(results) == multiset(StatusesInOrder(config.repositories, inputs))
  }

  /** `RunJobs` when the statuses arrive in dispatch order (one worker). */
  function RunJobs(config: Config, inputs: seq<JobInput>): (results: seq<JobStatus>)
    requires |inputs| == |config.repositories|
    ensures IsRunJobsResult(config, inputs, results)
    ensures config.threads >= 1 ==> |results| == |config.repositories|
  {
    if config.threads <= 0 then [] else StatusesInOrder(config.repositories, inputs)
  }

  /** Whatever order the workers finish in, a run with at least one worker
      reports exactly one status per configured repository: every
      repository's status is there, and every status reported belongs to a
      configured repository. */
  lemma OneStatusPerRepository(config: Config, inputs: seq<JobInput>, results: seq<JobStatus>)
    requires |inputs| == |config.repositories|
    requires config.threads >= 1
    requires IsRunJobsResult(config, inputs, results)
    ensures |results| == |config.repositories|
    ensures forall i :: 0 <= i < |config.repositories| ==>
      ProcessRepository(config.repositories[i], inputs[i].clone, inputs[i].status).status in results
    ensures forall s :: s in results ==>
      exists i :: 0 <= i < |config.repositories| && s.repository == config.repositories[i].url
  {
    var inOrder := StatusesInOrder(config.repositories, inputs);
    SameMultisetSameMembers(results, inOrder);
    StatusesNameRepositories(config.repositories, inputs);
  }

  /** The in-order statuses name their repositories' URLs, position by
      position. */
  lemma StatusesNameRepositories(repos: seq<Repository>, inputs: seq<JobInput>)
    requires |inputs| == |repos|
    ensures forall s :: s in StatusesInOrder(repos, inputs) ==>
      exists i :: 0 <= i < |repos| && s.repository == repos[i].url
  {
    var inOrder := StatusesInOrder(repos, inputs);
    forall s | s in inOrder
      ensures exists i :: 0 <= i < |repos| && s.repository == repos[i].url
    {
      var i :| 0 <= i < |inOrder| && inOrder[i] == s;
      assert inOrder[i].repository == repos[i].url;
    }
  }

  /** Two sequences with the same multiset have the same length and the
      same members. */
  lemma SameMultisetSameMembers<T>(a: seq<T>, b: seq<T>)
    requires multiset(a) == multiset(b)
    ensures |a| == |b|
    ensures forall i :: 0 <= i < |b| ==> b[i] in a
    ensures forall x :: x in a ==> x in b
  {
    assert |multiset(a)| == |multiset(b)|;
    forall i | 0 <= i < |b|
      ensures b[i] in a
    {
      assert b[i] in multiset(b);
    }
    forall x | x in a
      ensures x in b
    {
      assert x in multiset(a);
    }
  }
}

=== FILE: paths.dfy ===
/** `GetDefaultPath` of main.go: where configuration, logs and data live, by
    operating system. The operating system (`runtime.GOOS`) and the
    environment are parameters. */
module Paths {
  import opened Strings

  /** `os.Getenv`: the value of `key`, or the empty string when it is unset. */
  function Getenv(env: map<string, string>, key: string): string {
    if key in env then env[key] else ""
  }

  predicate IsWindows(goos: string) {
    goos == "windows"
  }

  /** The path separator of `goos`. */
  function Separator(goos: string): string {
    if IsWindows(goos) then "\\" else "/"
  }

  /** The non-empty elements of `elems`, in order. */
  function NonEmpty(elems: seq<string>): (r: seq<string>)
    ensures forall k :: 0 <= k < |r| ==> r[k] != ""
  {
    if |elems| == 0 then []
    else (if elems[0] == "" then [] else [elems[0]]) + NonEmpty(elems[1..])
  }

  lemma NonEmptyKeepsAll(elems: seq<string>)
    requires forall k :: 0 <= k < |elems| ==> elems[k] != ""
    ensures NonEmpty(elems) == elems
  {
  }

  /** `filepath.Join`: the non-empty elements joined with the separator.
      Empty elements are ignored, all-empty input gives the empty string, and
      two or three non-empty elements are separated by one separator each. */
  function JoinPath(goos: string, elems: seq<string>): (r: string)
    ensures NonEmpty(elems) == [] ==> r == ""
    ensures NonEmpty(elems) != [] ==>
      r == NonEmpty(elems)[0] + Concat(Prefixed(Separator(goos), NonEmpty(elems)[1..]))
    ensures |elems| == 1 && elems[0] != "" ==> r == elems[0]
    ensures |elems| == 2 && elems[0] != "" && elems[1] != "" ==>
      r == elems[0] + Separator(goos) + elems[1]
    ensures |elems| == 3 && elems[0] != "" && elems[1] != "" && elems[2] != "" ==>
      r == elems[0] + Separator(goos) + elems[1] + Separator(goos) + elems[2]
  {
    JoinShapes(Separator(goos), elems);
    Join(NonEmpty(elems), Separator(goos))
  }

  lemma JoinShapes(sep: string, elems: seq<string>)
    ensures |elems| == 1 && elems[0] != "" ==> Join(NonEmpty(elems), sep) == elems[0]
    ensures |elems| == 2 && elems[0] != "" && elems[1] != "" ==>
      Join(NonEmpty(elems), sep) == elems[0] + sep + elems[1]
    ensures |elems| == 3 && elems[0] != "" && elems[1] != "" && elems[2] != "" ==>
      Join(NonEmpty(elems), sep) == elems[0] + sep + elems[1] + sep + elems[2]
  {
    if forall k :: 0 <= k < |elems| ==> elems[k] != "" {
      NonEmptyKeepsAll(elems);
      if |elems| == 2 {
        JoinTwo(sep, elems);
      } else if |elems| == 3 {
        JoinThree(sep, elems);
      }
    }
  }

  lemma JoinTwo(sep: string, elems: seq<string>)
    requires |elems| == 2
    ensures Join(elems, sep) == elems[0] + sep + elems[1]
  {
    assert elems[1..] == [elems[1]];
  }

  lemma JoinThree(sep: string, elems: seq<string>)
    requires |elems| == 3
    ensures Join(elems, sep) == elems[0] + sep + elems[1] + sep + elems[2]
  {
    JoinTwo(sep, elems[1..]);
    assert Join(elems, sep) == elems[0] + sep + Join(elems[1..], sep);
  }

  lemma {:induction false} NonEmptyAppend(a: seq<string>, b: seq<string>)
    ensures NonEmpty(a + b) == NonEmpty(a) + NonEmpty(b)
  {
    if |a| > 0 {
      assert (a + b)[1..] == a[1..] + b;
      NonEmptyAppend(a[1..], b);
    } else {
      assert a + b == b;
    }
  }

  /** An empty element anywhere among the others changes nothing. */
  lemma JoinPathIgnoresEmpty(goos: string, a: seq<string>, b: seq<string>)
    ensures JoinPath(goos, a + [""] + b) == JoinPath(goos, a + b)
  {
    NonEmptyAppend(a + [""], b);
    NonEmptyAppend(a, [""]);
    NonEmptyAppend(a, b);
    assert NonEmpty([""]) == [];
    assert NonEmpty(a) + [] == NonEmpty(a);
  }

  const WindowsFallbackBase := "C:\\Users\\Public\\AppData"
  const WindowsLogDir := "C:\\Temp\\gigolow\\Logs"
  const WindowsDataDir := "C:\\ProgramData\\gigolow"

  /** The base directory: APPDATA on Windows, HOME elsewhere, each with a
      fixed fallback when the variable is empty or unset. */
  function BasePath(goos: string, env: map<string, string>): (base: string)
    ensures base != ""
    ensures IsWindows(goos) ==>
      base == if Getenv(env, "APPDATA") != "" then Getenv(env, "APPDATA") else WindowsFallbackBase
    ensures !IsWindows(goos) ==>
      base == if Getenv(env, "HOME") != "" then Getenv(env, "HOME") else "/tmp"
  {
    var v := Getenv(env, if IsWindows(goos) then "APPDATA" else "HOME");
    if v != "" then v
    else if IsWindows(goos) then WindowsFallbackBase
    else "/tmp"
  }

  /** `GetDefaultPath(tipo)`: "log" and "data" are fixed directories per
      operating system, "config" is `<base>/gigolow/config` and every other
      kind `<base>/gigolow`, with the operating system's separator. */
  function GetDefaultPath(tipo: string, goos: string, env: map<string, string>): (path: string)
    ensures path != ""
    ensures tipo == "log" ==> path == if IsWindows(goos) then WindowsLogDir else "/var/log/gigolow"
    ensures tipo == "data" ==> path == if IsWindows(goos) then WindowsDataDir else "/var/lib/gigolow"
    ensures tipo == "config" ==>
      path == BasePath(goos, env) + Separator(goos) + "gigolow" + Separator(goos) + "config"
    ensures tipo != "config" && tipo != "log" && tipo != "data" ==>
      path == BasePath(goos, env) + Separator(goos) + "gigolow"
  {
    var base := BasePath(goos, env);
    if tipo == "config" then JoinPath(goos, [base, "gigolow", "config"])
    else if tipo == "log" then (if IsWindows(goos) then JoinPath(goos, [WindowsLogDir]) else "/var/log/gigolow")
    else if tipo == "data" then (if IsWindows(goos) then JoinPath(goos, [WindowsDataDir]) else "/var/lib/gigolow")
    else JoinPath(goos, [base, "gigolow"])
  }

  /** The log and data directories do not depend on the environment. */
  lemma LogAndDataIgnoreEnvironment(goos: string, env1: map<string, string>, env2: map<string, string>)
    ensures GetDefaultPath("log", goos, env1) == GetDefaultPath("log", goos, env2)
    ensures GetDefaultPath("data", goos, env1) == GetDefaultPath("data", goos, env2)
  {
  }

  /** The configuration directory lies inside the default directory of the
      other kinds. */
  lemma ConfigInsideDefault(tipo: string, goos: string, env: map<string, string>)
    requires tipo != "config" && tipo != "log" && tipo != "data"
    ensures GetDefaultPath("config", goos, env) == GetDefaultPath(tipo, goos, env) + Separator(goos) + "config"
  {
  }
}

=== FILE: strings.dfy ===
/** The handful of Go `strings` operations the modelled code relies on,
    over `string == seq<char>` (one `char` per Unicode code point). */
module Strings {

  /** `p` occurs in `s` starting at position `i`. */
  predicate OccursAt(s: string, p: string, i: nat) {
    i + |p| <= |s| && s[i..i + |p|] == p
  }

  lemma OccursAtShift(s: string, p: string, i: nat)
    requires |s| > 0
    ensures OccursAt(s, p, i + 1) <==> OccursAt(s[1..], p, i)
  {
  }

  /** `strings.Contains(s, p)`, computed by trying each start position from the
      left; the result is exactly "`p` occurs somewhere in `s`". */
  function Contains(s: string, p: string): (b: bool)
    ensures b <==> exists i: nat :: OccursAt(s, p, i)
    decreases |s|
  {
    if |p| > |s| then
      assert forall i: nat :: !OccursAt(s, p, i);
      false
    else if s[..|p|] == p then
      assert OccursAt(s, p, 0);
      true
    else
      assert |s| > 0;
      var rest := Contains(s[1..], p);
      assert rest ==> exists i: nat :: OccursAt(s, p, i) by {
        if rest {
          var i: nat :| OccursAt(s[1..], p, i);
          OccursAtShift(s, p, i);
        }
      }
      assert (exists i: nat :: OccursAt(s, p, i)) ==> rest by {
        if exists i: nat :: OccursAt(s, p, i) {
          var i: nat :| OccursAt(s, p, i);
          assert i != 0;
          OccursAtShift(s, p, i - 1);
        }
      }
      rest
  }

  /** `strings.Join(xs, sep)`: the elements in order, `sep` between
      neighbours; with an empty separator, plain concatenation. */
  function Join(xs: seq<string>, sep: string): (r: string)
    ensures |xs| == 0 ==> r == ""
    ensures |xs| > 0 ==> r == xs[0] + Concat(Prefixed(sep, xs[1..]))
    ensures sep == "" ==> r == Concat(xs)
  {
    if |xs| == 0 then ""
    else if |xs| == 1 then xs[0]
    else
      var tail := Join(xs[1..], sep);
      assert xs[1..][1..] == xs[2..];
      assert Concat(Prefixed(sep, xs[1..])) == sep + xs[1] + Concat(Prefixed(sep, xs[2..]));
      xs[0] + sep + tail
  }

  /** Each element of `xs` with `sep` in front of it. */
  function Prefixed(sep: string, xs: seq<string>): (ys: seq<string>)
    ensures |ys| == |xs|
    ensures forall k :: 0 <= k < |xs| ==> ys[k] == sep + xs[k]
  {
    if |xs| == 0 then [] else [sep + xs[0]] + Prefixed(sep, xs[1..])
  }

  /** Go's `unicode.IsSpace`: the Latin-1 white space characters and the
      other code points with the Unicode White_Space property. */
  predicate IsSpace(c: char) {
    || c == '\t' || c == '\n' || c == '\U{B}' || c == '\U{C}' || c == '\r' || c == ' '
    || c == '\U{85}' || c == '\U{A0}' || c == '\U{1680}'
    || ('\U{2000}' <= c <= '\U{200A}')
    || c == '\U{2028}' || c == '\U{2029}' || c == '\U{202F}' || c == '\U{205F}' || c == '\U{3000}'
  }

  /** No white space anywhere in `s`. */
  predicate Spaceless(s: string) {
    forall k :: 0 <= k < |s| ==> !IsSpace(s[k])
  }

  /** A token `strings.Fields` can return: non-empty and free of white space. */
  predicate IsField(t: string) {
    |t| > 0 && Spaceless(t)
  }

  /** Every element of `ts` is a field. */
  predicate AllFields(ts: seq<string>) {
    forall k :: 0 <= k < |ts| ==> IsField(ts[k])
  }

  /** `s` with all white space removed. */
  function StripSpace(s: string): (r: string)
    ensures Spaceless(r)
    ensures |r| <= |s|
  {
    if |s| == 0 then ""
    else if IsSpace(s[0]) then StripSpace(s[1..])
    else [s[0]] + StripSpace(s[1..])
  }

  /** The concatenation of the elements of `ts`. */
  function Concat(ts: seq<string>): string {
    if |ts| == 0 then "" else ts[0] + Concat(ts[1..])
  }

  /** The length of the run of non-space characters at the front of `s`. */
  function WordLength(s: string): (n: nat)
    ensures n <= |s|
    ensures Spaceless(s[..n])
    ensures n < |s| ==> IsSpace(s[n])
  {
    if |s| == 0 || IsSpace(s[0]) then 0
    else
      var m := WordLength(s[1..]);
      assert s[..m + 1] == [s[0]] + s[1..][..m];
      m + 1
  }

  /** `strings.Fields(s)`: the maximal runs of non-space characters of `s`, in
      order. Every token is a field, and nothing but white space is dropped. */
  function Fields(s: string): (ts: seq<string>)
    ensures AllFields(ts)
    ensures Concat(ts) == StripSpace(s)
    decreases |s|
  {
    if |s| == 0 then []
    else if IsSpace(s[0]) then Fields(s[1..])
    else
      var n := WordLength(s);
      var rest := Fields(s[n..]);
      assert s == s[..n] + s[n..];
      StripSpaceAppend(s[..n], s[n..]);
      StripSpaceless(s[..n]);
      [s[..n]] + rest
  }

  lemma StripSpaceAppend(a: string, b: string)
    ensures StripSpace(a + b) == StripSpace(a) + StripSpace(b)
  {
    if |a| > 0 {
      assert (a + b)[1..] == a[1..] + b;
      StripSpaceAppend(a[1..], b);
    } else {
      assert a + b == b;
    }
  }

  lemma StripSpaceless(a: string)
    requires Spaceless(a)
    ensures StripSpace(a) == a
  {
  }

  /** A field followed by white space is read as exactly that one word. */
  lemma {:induction false} WordLengthOfField(t: string, r: string)
    requires IsField(t)
    requires |r| == 0 || IsSpace(r[0])
    ensures WordLength(t + r) == |t|
    decreases |t|
  {
    if |t| > 1 {
      assert (t + r)[1..] == t[1..] + r;
      WordLengthOfField(t[1..], r);
    } else {
      assert (t + r)[1..] == r;
    }
  }

  /** Splitting a space-joined list of fields gives the list back: `Fields` and
      `Join(_, " ")` are inverse on lists of fields. */
  lemma {:induction false} FieldsJoinRoundTrip(ts: seq<string>)
    requires AllFields(ts)
    ensures Fields(Join(ts, " ")) == ts
  {
    if |ts| == 0 {
    } else if |ts| == 1 {
      var t := ts[0];
      assert IsField(t);
      WordLengthOfField(t, "");
      assert t + "" == t;
      assert t[|t|..] == "";
    } else {
      var t := ts[0];
      assert IsField(t);
      var tail := Join(ts[1..], " ");
      var s := t + " " + tail;
      assert s == t + (" " + tail);
      WordLengthOfField(t, " " + tail);
      assert s[..|t|] == t;
      assert s[|t|..] == " " + tail;
      assert (" " + tail)[1..] == tail;
      FieldsJoinRoundTrip(ts[1..]);
      assert ts == [t] + ts[1..];
    }
  }

  /** `w` is all white space (possibly empty). */
  predicate AllSpace(w: string) {
    forall k :: 0 <= k < |w| ==> IsSpace(w[k])
  }

  /** `ws[0] + ts[0] + ws[1] + ... + ts[n-1] + ws[n]`. */
  function Interleave(ws: seq<string>, ts: seq<string>): string
    requires |ws| == |ts| + 1
  {
    if |ts| == 0 then ws[0] else ws[0] + ts[0] + Interleave(ws[1..], ts[1..])
  }

  /** `s` is the fields `ts` separated by the white-space runs `ws`: runs may be
      empty only at the two ends. */
  predicate SplitsAt(s: string, ws: seq<string>, ts: seq<string>) {
    && |ws| == |ts| + 1
    && AllFields(ts)
    && (forall k :: 0 <= k < |ws| ==> AllSpace(ws[k]))
    && (forall k :: 0 < k < |ts| ==> |ws[k]| > 0)
    && s == Interleave(ws, ts)
  }

  lemma InterleaveConsSpace(c: char, ws: seq<string>, ts: seq<string>)
    requires |ws| == |ts| + 1
    ensures Interleave([[c] + ws[0]] + ws[1..], ts) == [c] + Interleave(ws, ts)
  {
    var ws' := [[c] + ws[0]] + ws[1..];
    assert ws'[1..] == ws[1..];
  }

  /** `Fields` cuts `s` at every run of white space: these are the runs
      around the fields of `s` (non-empty between neighbours, possibly empty
      at the ends). */
  lemma {:induction false} FieldsGaps(s: string) returns (ws: seq<string>)
    ensures SplitsAt(s, ws, Fields(s))
    decreases |s|
  {
    var ts := Fields(s);
    if |s| == 0 {
      ws := [""];
    } else if IsSpace(s[0]) {
      var ws' := FieldsGaps(s[1..]);
      ws := [[s[0]] + ws'[0]] + ws'[1..];
      InterleaveConsSpace(s[0], ws', ts);
      assert s == [s[0]] + s[1..];
      assert forall k :: 0 < k < |ws| ==> ws[k] == ws'[k];
    } else {
      var n := WordLength(s);
      var ws' := FieldsGaps(s[n..]);
      ws := [""] + ws';
      assert ts == [s[..n]] + Fields(s[n..]);
      SlicesJoin(s, n);
      WordBeforeSplit(s[..n], s[n..], ws', Fields(s[n..]));
    }
  }

  /** A field followed by a split that is empty or starts with white space
      is a split with an empty leading run. */
  lemma WordBeforeSplit(word: string, rest: string, ws': seq<string>, ts': seq<string>)
    requires IsField(word) && (|rest| == 0 || IsSpace(rest[0]))
    requires SplitsAt(rest, ws', ts')
    ensures SplitsAt(word + rest, [""] + ws', [word] + ts')
  {
    var ws := [""] + ws';
    var ts := [word] + ts';
    assert ws[1..] == ws' && ts[1..] == ts';
    assert forall k :: 0 < k < |ws| ==> ws[k] == ws'[k - 1];
    assert forall k :: 0 < k < |ts| ==> ts[k] == ts'[k - 1];
    if |ts'| > 0 {
      LeadingRunOfSplit(rest, ws', ts');
      assert |ws[1]| > 0;
    }
    assert Interleave(ws, ts) == ws[0] + ts[0] + Interleave(ws', ts');
    assert ws[0] + ts[0] == word;
  }

  lemma SlicesJoin(s: string, n: nat)
    requires n <= |s|
    ensures s == s[..n] + s[n..]
  {
  }

  /** A string splits into fields and white-space runs in only one way. */
  lemma {:induction false} SplitIsUnique(s: string, ws1: seq<string>, ts1: seq<string>, ws2: seq<string>, ts2: seq<string>)
    requires SplitsAt(s, ws1, ts1) && SplitsAt(s, ws2, ts2)
    ensures ts1 == ts2
    decreases |ts1|
  {
    NoFieldsOnlyWhenAllSpace(s, ws1, ts1);
    NoFieldsOnlyWhenAllSpace(s, ws2, ts2);
    if |ts1| > 0 && |ts2| > 0 {
      var r := SplitHead(s, ws1, ts1);
      var r' := SplitHead(s, ws2, ts2);
      SplitTail(s, ws1, ts1);
      SplitTail(s, ws2, ts2);
      SplitIsUnique(r, ws1[1..], ts1[1..], ws2[1..], ts2[1..]);
      assert ts1 == [ts1[0]] + ts1[1..] && ts2 == [ts2[0]] + ts2[1..];
    }
  }

  /** The first field of a split is determined by the string: it is the
      word after the leading white space, and the rest of the split is what
      follows that word. */
  lemma SplitHead(s: string, ws: seq<string>, ts: seq<string>) returns (r: string)
    requires SplitsAt(s, ws, ts) && |ts| > 0
    ensures var u := s[LeadingSpace(s)..];
      && ts[0] == u[..WordLength(u)]
      && r == Interleave(ws[1..], ts[1..]) == u[WordLength(u)..]
  {
    r := Interleave(ws[1..], ts[1..]);
    assert s == ws[0] + ts[0] + r;
    LeadingRunOfSplit(s, ws, ts);
    RestStartsWithSpace(ws, ts);
    var u := s[|ws[0]|..];
    assert u == ts[0] + r;
    WordLengthOfField(ts[0], r);
  }

  /** The length of the run of white space at the front of `s`. */
  function LeadingSpace(s: string): (n: nat)
    ensures n <= |s|
  {
    if |s| == 0 || !IsSpace(s[0]) then 0 else 1 + LeadingSpace(s[1..])
  }

  lemma {:induction false} LeadingSpaceOfRun(w: string, u: string)
    requires AllSpace(w)
    requires |u| > 0 && !IsSpace(u[0])
    ensures LeadingSpace(w + u) == |w|
    decreases |w|
  {
    if |w| > 0 {
      assert (w + u)[1..] == w[1..] + u;
      LeadingSpaceOfRun(w[1..], u);
    } else {
      assert w + u == u;
    }
  }

  /** In a split with at least one field, the first run is exactly the
      leading white space. */
  lemma LeadingRunOfSplit(s: string, ws: seq<string>, ts: seq<string>)
    requires SplitsAt(s, ws, ts) && |ts| > 0
    ensures |ws[0]| == LeadingSpace(s)
  {
    assert IsField(ts[0]);
    var u := ts[0] + Interleave(ws[1..], ts[1..]);
    assert s == ws[0] + u;
    assert u[0] == ts[0][0];
    LeadingSpaceOfRun(ws[0], u);
  }

  /** A split has no fields exactly when the string is all white space. */
  lemma NoFieldsOnlyWhenAllSpace(s: string, ws: seq<string>, ts: seq<string>)
    requires SplitsAt(s, ws, ts)
    ensures |ts| == 0 <==> AllSpace(s)
  {
    if |ts| > 0 {
      assert IsField(ts[0]);
      assert s == ws[0] + ts[0] + Interleave(ws[1..], ts[1..]);
      assert s[|ws[0]|] == ts[0][0];
    }
  }

  lemma RestStartsWithSpace(ws: seq<string>, ts: seq<string>)
    requires |ws| == |ts| + 1 && |ts| > 0
    requires forall k :: 0 <= k < |ws| ==> AllSpace(ws[k])
    requires forall k :: 0 < k < |ts| ==> |ws[k]| > 0
    requires AllFields(ts)
    ensures var r := Interleave(ws[1..], ts[1..]); |r| == 0 || IsSpace(r[0])
  {
    var r := Interleave(ws[1..], ts[1..]);
    if |ts| > 1 {
      assert |ws[1]| > 0 && AllSpace(ws[1]);
      assert r == ws[1] + ts[1] + Interleave(ws[1..][1..], ts[1..][1..]);
      assert r[0] == ws[1][0];
    } else {
      assert r == ws[1];
      assert AllSpace(ws[1]);
    }
  }

  lemma SplitTail(s: string, ws: seq<string>, ts: seq<string>)
    requires SplitsAt(s, ws, ts) && |ts| > 0
    ensures SplitsAt(Interleave(ws[1..], ts[1..]), ws[1..], ts[1..])
  {
    assert forall k :: 0 <= k < |ts[1..]| ==> ts[1..][k] == ts[k + 1];
    assert forall k :: 0 <= k < |ws[1..]| ==> ws[1..][k] == ws[k + 1];
  }

  /** `Fields(s)` is exactly the list of fields that `s` splits into at its
      white-space runs: the split exists, and it is the only one. */
  lemma FieldsCharacterized(s: string, ts: seq<string>)
    ensures (exists ws :: SplitsAt(s, ws, ts)) <==> ts == Fields(s)
  {
    var gaps := FieldsGaps(s);
    if exists ws :: SplitsAt(s, ws, ts) {
      var ws :| SplitsAt(s, ws, ts);
      SplitIsUnique(s, ws, ts, gaps, Fields(s));
    }
  }

  /** ASCII lower-casing of one character. */
  function LowerChar(c: char): char {
    if 'A' <= c <= 'Z' then (c as int + 32) as char else c
  }

  /** An ASCII upper-case letter. */
  predicate IsUpper(c: char) {
    'A' <= c <= 'Z'
  }

  /** `c` and `d` are the same character up to ASCII letter case. */
  predicate SameUpToCase(c: char, d: char) {
    c == d || (IsUpper(c) && d as int == c as int + 32) || (IsUpper(d) && c as int == d as int + 32)
  }

  /** `strings.ToLower`, on the ASCII letters: no upper-case letter remains,
      and each character is the input's up to case. */
  function ToLower(s: string): (r: string)
    ensures |r| == |s|
    ensures forall k :: 0 <= k < |s| ==> !IsUpper(r[k]) && SameUpToCase(s[k], r[k])
  {
    seq(|s|, k requires 0 <= k < |s| => LowerChar(s[k]))
  }
}

=== FILE: wrappers.dfy ===
/** Optional values, used where the modelled code either produces a value or
    has none: the program of a menu choice (none for an invalid choice) and
    the error of a git command (none when it succeeded). */
module Wrappers {

  datatype Option<+T> = None | Some(value: T)
}
